=== FILE: README.md ===
# A/B virality scoring: the decision core, in Dafny

The system asks multimodal inference providers (GPT-5.1, Claude 4 Opus) to
score a piece of social-media content, turns each provider's free-text reply
into a score record, averages the records into an ensemble, and for two
variants declares a winner with a confidence figure. This project models the
pure decision code wrapped around the provider calls, in both source files:

- **Response extractor** (`Extractor`): the substring of a reply handed to
  `json.loads`, chosen by the fence expression ```` ```json\s*(.*?)\s*``` ````,
  else by the `{` ... `}` slice, else the whole reply. Both files use the same
  rule; one definition models both.
- **Score record reading** (`Scoring`): `_parse_json_response` with its
  defaults of 50, the parse-error record (confidence 30) and the
  provider-error record (confidence 20, `-ERROR` tag).
- **Ensemble** (`Ensemble`): `score_ensemble`, the field-wise mean over all
  records and the `"Ensemble of {n} models. "` reasoning.
- **A/B decision** (`Decision`, `WebApp`): the strict-greater winner rule, the
  confidence `min(50 + |a - b| * 0.8, 95)`, and the two routes of the web
  front end (`score_single`, `predict_ab`).

Scores are exact `real`s, so `0.8` is exactly 4/5 and `np.mean` is an exact
mean. `json.loads` and Python's `float()` on a string are not modelled: they
are passed in as a `Decoder` holding two functions that return a value or an
error message. A provider call is a `Reply`: the reply text, or the message of
the exception the call raised (a reply whose content is `None` makes the
source raise inside the regex call, so it is a `Raised` reply too). Every
exception along these paths is a `Fault`, and a route that would answer with
an error response returns `Failure`.

Three facts about the code shape the model:

- Failed providers' neutral 50s enter the mean: every record is averaged, and
  `confidence > 30` only feeds the count quoted in the reasoning and the
  `n == 0` return of the first record. `Ensemble.OneProviderFailed` shows
  each component of a readable reply beside a failed call averaging to
  (x + 50) / 2; `Ensemble.FailuresAreAveraged` gives 55 for a reply of 60s.
- A reply with neither a ```` ```json ```` fence nor a `{` goes to
  `json.loads` unchanged.
- There is no error flag. A provider failure shows in its confidence of 20
  and its `-ERROR` tag; a parse failure keeps the plain model name and shows
  only in its confidence of 30 and its `Parse error: ` reasoning.

## Model

| member | source | states |
|---|---|---|
| Extractor.FindFence | multimodal_system.py:117-119 | A fence is found exactly when an opener ```` ```json ```` has a closer ```` ``` ```` at or after its end, and the one found is the leftmost opener with the greedy whitespace skip and the first closer after it |
| Extractor.NoFenceAfterFirstOpener | app.py:426 | If the leftmost opener has no closer after its whitespace, the expression matches nowhere in the reply |
| Extractor.LeftmostFenceUnique | app.py:426-427 | The leftmost-match description determines a single fence, so the captured group is well defined |
| Extractor.ExtractJsonText | multimodal_system.py:117-123 | The extracted text is the leftmost fence's interior without surrounding whitespace; else, with a `{`, the text from the first `{` to the last `}` inclusive, or empty when no `}` follows the first `{`; else the reply unchanged |
| Extractor.ProseWrappedRoundTrip | app.py:428 | A reply of prose without `{`, then one `{`...`}` object, then prose without `}`, and no fence, hands exactly that object to the decoder |
| Extractor.FencedRoundTrip | app.py:426-427 | A reply holding ```` ```json ```` + whitespace + payload + whitespace + ```` ``` ```` after backtick-free prose hands exactly the payload to the decoder |
| Text.NatToStringRoundTrip | multimodal_system.py:243 | The decimal rendering of the model count reads back as the same count |
| Json.ToFloat | multimodal_system.py:128 | `float()` keeps a number's value, gives 1.0 or 0.0 for a boolean and the string conversion's value for a readable string; an unreadable string raises with the conversion's message, and null, a list or a dict cannot be converted |
| Scoring.ReadMetrics | multimodal_system.py:128-136 | Reading the fields in order yields one converted value per field, or the error of the first field whose conversion raises, all fields before it having converted |
| Scoring.ParseJsonResponse | multimodal_system.py:112-140 | When the reply decodes to an object whose numeric fields convert, each field is its decoded value or 50 when absent (confidence included) and the reasoning is the decoded one or `''`; otherwise the record is seven 50s, confidence 30, reasoning starting `Parse error: `; the model tag is always the given name |
| Scoring.ParsesFencedReply | multimodal_system.py:117-138 | A fenced object reply is read field by field with the defaults of 50, with the given model tag |
| Scoring.ScoreWith | multimodal_system.py:174-177 | A raised provider call gives seven 50s, confidence 20, the exception text as reasoning and the `-ERROR` tag (likewise lines 208-211 for Claude); the tag is the error tag exactly when the call raised; an answered call is parsed under the model's name |
| Ensemble.MeanRecord | multimodal_system.py:235-244 | Every numeric field of the ensemble record, confidence included, is the mean of that field over all records |
| Ensemble.EnsembleReasoning | multimodal_system.py:243 | The reasoning is `Ensemble of {n} models. ` followed by the first min(150, length) characters of the quoted reasoning |
| Ensemble.Aggregate | multimodal_system.py:231-246 | With no record above confidence 30 the first record is returned unchanged; otherwise it fails exactly when the first record's reasoning is not a string, and else every field is the mean over all records, the reasoning quotes the count and the first reasoning, and the tag is `Ensemble-GPT5.1-Claude4` |
| Ensemble.CountConfidentCounts | multimodal_system.py:231 | The count of contributing models is the number of positions whose record has confidence above 30 |
| Ensemble.ScoreEnsemble | multimodal_system.py:213-249 | The ensemble combines GPT's record first and Claude's second, so GPT's decides the `n == 0` return and the quoted reasoning; when both calls raise it is the GPT error record itself |
| Ensemble.PairMean | multimodal_system.py:231-245 | Of two records, a confident one with string reasoning first and an unconfident one second, the ensemble is the field-wise pairwise mean, counts one model, quotes the first reasoning and carries the ensemble tag |
| Ensemble.OneProviderFailed | multimodal_system.py:213-245 | When GPT answers with a record above confidence 30 whose reasoning is a string and Claude's call raises, the ensemble succeeds, each component is (GPT's + 50) / 2, the confidence is (GPT's + 20) / 2, and the reasoning quotes a count of 1 and GPT's reasoning |
| Ensemble.MeanWithinBounds | multimodal_system.py:235-244 | Each averaged field lies between any lower and upper bound that holds for that field in every input record |
| Ensemble.PermutationInvariant | multimodal_system.py:231-244 | Reordering the records changes neither any field total nor the count of confident records |
| Ensemble.AggregateOrderIndependent | multimodal_system.py:235-244 | The ensemble's numeric fields and its count do not depend on the order of the records |
| Ensemble.FailuresNotCounted | multimodal_system.py:231 | Parse-error and provider-error records never count as contributing models |
| Ensemble.FailuresAreAveraged | multimodal_system.py:236 | A failed provider's 50 still enters the mean: 60 beside a failed call averages to 55 |
| Decision.Winner | multimodal_system.py:289 | A wins only with a strictly higher score; B wins otherwise, ties included |
| Decision.AbConfidence | multimodal_system.py:290-291 | Confidence lies in [50, 95], equals 95 exactly when the gap is at least 56.25, and below the cap gives back the gap as (confidence - 50) / 0.8 |
| Decision.WinnerLeads | app.py:467-468 | The winner's score is at least the loser's; equal scores give B at confidence 50 |
| Decision.ConfidenceSymmetric | app.py:468 | Swapping the two scores leaves the confidence unchanged |
| Decision.ConfidenceMonotone | app.py:468 | A wider score gap never gives a lower confidence |
| Decision.DecisionExamples | app.py:467-468 | 70 vs 70 gives B at 50; 90 vs 50 gives A at 82; 20 vs 95 gives B at the cap 95 |
| Decision.Decide | multimodal_system.py:288-322 | The winner is A exactly when A's overall score is strictly higher; the score difference is the absolute gap; both ensemble records are returned unchanged; the quoted reasoning is the winner's |
| Decision.PredictAbWinner | multimodal_system.py:281-291 | The prediction exists exactly when both ensembles do, and is then the decision on A's and B's ensemble records, carried unchanged; otherwise it fails with A's ensemble error, or with B's when only B fails |
| WebApp.ScoreSingle | app.py:425-432 | A raised provider call is an error response; otherwise the response is whatever `json.loads` gives for the extracted text, or its error |
| WebApp.ScoreSingleProseReply | app.py:428-430 | A prose-wrapped object reply scores as exactly the decoded object |
| WebApp.PredictAb | app.py:455-481 | The comparison succeeds exactly when both replies decode to objects whose overall scores are numbers; then A wins iff its score is strictly higher, confidence follows the formula, each echoed field is the decoded value or 50 when absent, and the reasoning is the winner's or `''`; otherwise the error is A's failure, else B's, else the `.get` on a non-object, else the comparison of non-numbers |
| WebApp.PredictAbTie | app.py:467-468 | Equal numeric overall scores give B at confidence 50 |

## Left out

- Flask routing, the HTML page, form and file-upload decoding, `jsonify`, and the error response's HTTP status: web plumbing around the modelled decisions.
- The OpenAI and Anthropic SDK calls and client setup, and the Gemini initialisation (the ensemble never adds a Gemini score): network calls, represented by a `Reply`.
- Prompt templating, base64 encoding of images, reading image files and the `os.path.exists` checks: I/O and string interpolation with no decision in them.
- The formatted report text of `predict_ab_winner` (the `.1f` renderings and layout): only the winner's reasoning quoted in it is modelled, as `winnerReasoning`.
- `json.loads` and `float()` of a string: supplied as the `Decoder`'s two functions rather than defined.
- Float behaviour: scores are exact reals, so rounding in `np.mean`, `* 0.8`, float overflow, NaN and infinities are not modelled.
- Json.Describe: the text an exception contributes after `Parse error: ` is the model's own wording for each cause, not Python's exact exception message.
- WebApp.PredictAb: every non-numeric overall score gives the one `NotComparable` fault, whereas Python raises its `TypeError` at `>` or at `-` with different messages.
- Python strings are sequences of code points; lone surrogates, which Dafny's `char` excludes, are not modelled.
- Console output (`print`), the banner and `main()`: cosmetic.
- Media classification, the video analysis job and recommendations: these files contain no code for them.

=== FILE: decision.dfy ===
/**
 * The A/B decision shared by both files: the winner rule, the confidence
 * formula, and `predict_ab_winner` over two ensembles.
 */
module Decision {
  import opened Results
  import opened Json
  import opened Scoring
  import opened Ensemble

  datatype Variant = A | B

  /** Confidence reported for a zero score gap. */
  const ConfidenceFloor: real := 50.0
  /** Confidence is never reported above this. */
  const ConfidenceCap: real := 95.0
  /** Confidence points per point of score gap (the source's `0.8`, exact here). */
  const ConfidenceSlope: real := 0.8

  function Abs(x: real): (r: real)
    ensures r >= 0.0 && (r == x || r == -x)
  {
    if x < 0.0 then -x else x
  }

  function ScoreOf(v: Variant, a: real, b: real): real {
    if v == A then a else b
  }

  /** `'A' if a > b else 'B'`: A must lead strictly; B takes exact ties. */
  function Winner(a: real, b: real): (w: Variant)
    ensures w == A ==> a > b
    ensures w == B ==> b >= a
  {
    if a > b then A else B
  }

  /** `min(50 + abs(a - b) * 0.8, 95)`. */
  function AbConfidence(a: real, b: real): (c: real)
    ensures ConfidenceFloor <= c <= ConfidenceCap
    ensures c == ConfidenceCap <==> Abs(a - b) >= 56.25
    ensures c < ConfidenceCap ==> Abs(a - b) == (c - ConfidenceFloor) / ConfidenceSlope
  {
    var raw := ConfidenceFloor + Abs(a - b) * ConfidenceSlope;
    if raw < ConfidenceCap then raw else ConfidenceCap
  }

  /** The winner always has the higher score, or an equal one when B wins a tie. */
  lemma WinnerLeads(a: real, b: real)
    ensures ScoreOf(Winner(a, b), a, b) >= ScoreOf(if Winner(a, b) == A then B else A, a, b)
    ensures a == b ==> Winner(a, b) == B && AbConfidence(a, b) == ConfidenceFloor
  {
  }

  /** Swapping the variants does not change the confidence. */
  lemma ConfidenceSymmetric(a: real, b: real)
    ensures AbConfidence(a, b) == AbConfidence(b, a)
  {
  }

  /** A wider score gap never lowers the confidence. */
  lemma ConfidenceMonotone(a: real, b: real, c: real, d: real)
    requires Abs(a - b) <= Abs(c - d)
    ensures AbConfidence(a, b) <= AbConfidence(c, d)
  {
  }

  /** The outcome of `predict_ab_winner`; `winnerReasoning` is the part of the report quoted from the winner. */
  datatype ABPrediction = ABPrediction(
    winner: Variant,
    confidence: real,
    scoreDifference: real,
    winnerReasoning: JsonValue,
    variantAScore: ScoreRecord,
    variantBScore: ScoreRecord)

  /** The decision step of `predict_ab_winner` on the two ensemble records. */
  function Decide(a: ScoreRecord, b: ScoreRecord): (p: ABPrediction)
    ensures p.winner == A <==> a.overallScore > b.overallScore
    ensures p.scoreDifference >= 0.0
    ensures p.scoreDifference == a.overallScore - b.overallScore || p.scoreDifference == b.overallScore - a.overallScore
    ensures p.confidence == AbConfidence(a.overallScore, b.overallScore)
    ensures p.variantAScore == a && p.variantBScore == b
    ensures p.winnerReasoning == (if p.winner == A then a else b).reasoning
  {
    var w := Winner(a.overallScore, b.overallScore);
    ABPrediction(w, AbConfidence(a.overallScore, b.overallScore), Abs(a.overallScore - b.overallScore),
                 if w == A then a.reasoning else b.reasoning, a, b)
  }

  /**
   * `predict_ab_winner`: each variant scored by the ensemble (A first), then
   * decided. An exception from either ensemble propagates.
   */
  function PredictAbWinner(gptA: Reply, claudeA: Reply, gptB: Reply, claudeB: Reply, dec: Decoder): (r: Result<ABPrediction, Fault>)
    ensures r.Success? <==> ScoreEnsemble(gptA, claudeA, dec).Success? && ScoreEnsemble(gptB, claudeB, dec).Success?
    ensures r.Success? ==> r.value.variantAScore == ScoreEnsemble(gptA, claudeA, dec).value
    ensures r.Success? ==> r.value.variantBScore == ScoreEnsemble(gptB, claudeB, dec).value
    ensures r.Success? ==> r.value == Decide(r.value.variantAScore, r.value.variantBScore)
    ensures ScoreEnsemble(gptA, claudeA, dec).Failure? ==> r == Failure(ScoreEnsemble(gptA, claudeA, dec).error)
    ensures ScoreEnsemble(gptA, claudeA, dec).Success? && ScoreEnsemble(gptB, claudeB, dec).Failure? ==>
              r == Failure(ScoreEnsemble(gptB, claudeB, dec).error)
  {
    match ScoreEnsemble(gptA, claudeA, dec)
    case Failure(f) => Failure(f)
    case Success(a) =>
      match ScoreEnsemble(gptB, claudeB, dec)
      case Failure(f) => Failure(f)
      case Success(b) => Success(Decide(a, b))
  }

  /** Worked examples: a tie, a 40-point gap, a gap past the cap. */
  lemma DecisionExamples()
    ensures Winner(70.0, 70.0) == B && AbConfidence(70.0, 70.0) == 50.0
    ensures Winner(90.0, 50.0) == A && AbConfidence(90.0, 50.0) == 82.0
    ensures Winner(20.0, 95.0) == B && AbConfidence(20.0, 95.0) == 95.0
  {
  }
}

=== FILE: ensemble.dfy ===
/**
 * `score_ensemble`: the records of all providers combined into one. Every
 * numeric field is the mean over ALL records, failed ones included; the
 * confidence threshold only decides the count quoted in the reasoning and
 * whether the first record is returned untouched.
 */
module Ensemble {
  import opened Results
  import opened Text
  import opened Json
  import opened Scoring

  /** A record counts as a contributing model when its confidence exceeds this. */
  const CountThreshold: real := 30.0
  /** How many characters of the first record's reasoning the ensemble quotes. */
  const QuoteLength: nat := 150
  const EnsembleTag: string := "Ensemble-GPT5.1-Claude4"

  /** The sum of metric `m` over the records. */
  function Total(scores: seq<ScoreRecord>, m: Metric): real {
    if |scores| == 0 then 0.0 else Value(scores[0], m) + Total(scores[1..], m)
  }

  /** `np.mean` of metric `m`, in exact arithmetic. */
  function Mean(scores: seq<ScoreRecord>, m: Metric): real
    requires |scores| > 0
  {
    Total(scores, m) / (|scores| as real)
  }

  /** `len([s for s in scores if s.confidence > 30])`. */
  function CountConfident(scores: seq<ScoreRecord>): (n: nat)
    ensures n <= |scores|
  {
    if |scores| == 0 then 0
    else (if scores[0].confidence > CountThreshold then 1 else 0) + CountConfident(scores[1..])
  }

  /** The positions from `lo` on whose record's confidence exceeds the threshold. */
  ghost function ConfidentFrom(scores: seq<ScoreRecord>, lo: nat): set<int> {
    set i | lo <= i < |scores| && scores[i].confidence > CountThreshold
  }

  lemma {:induction false} CountFrom(scores: seq<ScoreRecord>, lo: nat)
    requires lo <= |scores|
    ensures CountConfident(scores[lo..]) == |ConfidentFrom(scores, lo)|
    decreases |scores| - lo
  {
    if lo == |scores| {
      assert ConfidentFrom(scores, lo) == {};
    } else {
      CountFrom(scores, lo + 1);
      assert scores[lo..][1..] == scores[lo + 1..];
      var head: set<int> := if scores[lo].confidence > CountThreshold then {lo} else {};
      assert ConfidentFrom(scores, lo) == head + ConfidentFrom(scores, lo + 1);
      assert lo !in ConfidentFrom(scores, lo + 1);
    }
  }

  /** The count is the number of positions holding a record whose confidence exceeds 30. */
  lemma CountConfidentCounts(scores: seq<ScoreRecord>)
    ensures CountConfident(scores) == |set i | 0 <= i < |scores| && scores[i].confidence > CountThreshold|
  {
    CountFrom(scores, 0);
    assert scores[0..] == scores;
  }

  function EnsembleHead(n: nat): string {
    "Ensemble of " + NatToString(n) + " models. "
  }

  /** `v` is `f"Ensemble of {n} models. " + quoted[:150]`. */
  ghost predicate IsEnsembleReasoning(v: JsonValue, n: nat, quoted: string) {
    && v.JStr?
    && EnsembleHead(n) <= v.str
    && v.str[|EnsembleHead(n)|..] <= quoted
    && |v.str| - |EnsembleHead(n)| == (if |quoted| < QuoteLength then |quoted| else QuoteLength)
  }

  /** `x` is the mean of metric `m` over the records: it times their number is their total. */
  ghost predicate IsMeanOf(scores: seq<ScoreRecord>, m: Metric, x: real) {
    x * (|scores| as real) == Total(scores, m)
  }

  lemma MeanScales(scores: seq<ScoreRecord>)
    requires |scores| > 0
    ensures forall m :: IsMeanOf(scores, m, Mean(scores, m))
  {
  }

  /** The record whose numeric fields are the means over the records. */
  function MeanRecord(scores: seq<ScoreRecord>, reasoning: JsonValue, model: string): (r: ScoreRecord)
    requires |scores| > 0
    ensures forall m :: IsMeanOf(scores, m, Value(r, m))
    ensures r.reasoning == reasoning && r.modelUsed == model
  {
    MeanScales(scores);
    ScoreRecord(
      Mean(scores, OverallScore), Mean(scores, TextQuality), Mean(scores, VisualAppeal),
      Mean(scores, EmotionalResonance), Mean(scores, Clarity), Mean(scores, BrandAlignment),
      Mean(scores, PlatformOptimization), reasoning, Mean(scores, Confidence), model)
  }

  /** `f"Ensemble of {n} models. " + quoted[:150]`. */
  function EnsembleReasoning(n: nat, quoted: string): (v: JsonValue)
    ensures IsEnsembleReasoning(v, n, quoted)
  {
    var t := EnsembleHead(n) + Take(quoted, QuoteLength);
    assert t[|EnsembleHead(n)|..] == Take(quoted, QuoteLength);
    JStr(t)
  }

  /**
   * The combination step of `score_ensemble`. The concatenation with the first
   * record's reasoning raises when that reasoning is not a string.
   */
  function Aggregate(scores: seq<ScoreRecord>): (r: Result<ScoreRecord, Fault>)
    requires |scores| > 0
    ensures CountConfident(scores) == 0 ==> r == Success(scores[0])
    ensures CountConfident(scores) > 0 ==> (r.Success? <==> scores[0].reasoning.JStr?)
    ensures CountConfident(scores) > 0 && r.Success? ==>
              && (forall m :: IsMeanOf(scores, m, Value(r.value, m)))
              && IsEnsembleReasoning(r.value.reasoning, CountConfident(scores), scores[0].reasoning.str)
              && r.value.modelUsed == EnsembleTag
  {
    var n := CountConfident(scores);
    if n == 0 then Success(scores[0])
    else if !scores[0].reasoning.JStr? then Failure(ReasoningNotText)
    else Success(MeanRecord(scores, EnsembleReasoning(n, scores[0].reasoning.str), EnsembleTag))
  }

  /** `score_ensemble` over the replies of the two providers it asks, in its order. */
  function ScoreEnsemble(gpt: Reply, claude: Reply, dec: Decoder): (r: Result<ScoreRecord, Fault>)
    ensures r == Aggregate([ScoreWith(Gpt51, gpt, dec), ScoreWith(Claude4Opus, claude, dec)])
    ensures gpt.Raised? && claude.Raised? ==>
              r == Success(ScoreWith(Gpt51, gpt, dec)) && IsProviderFailure(r.value)
  {
    var scores := [ScoreWith(Gpt51, gpt, dec), ScoreWith(Claude4Opus, claude, dec)];
    assert gpt.Raised? && claude.Raised? ==> CountConfident(scores) == 0;
    Aggregate(scores)
  }

  /** Two records, the first readable and confident: the ensemble is their pairwise mean. */
  lemma PairMean(g: ScoreRecord, c: ScoreRecord)
    requires g.confidence > CountThreshold && c.confidence <= CountThreshold
    requires g.reasoning.JStr?
    ensures var r := Aggregate([g, c]);
            && r.Success?
            && (forall m :: Value(r.value, m) == (Value(g, m) + Value(c, m)) / 2.0)
            && IsEnsembleReasoning(r.value.reasoning, 1, g.reasoning.str)
            && r.value.modelUsed == EnsembleTag
  {
    var scores := [g, c];
    assert scores[1..] == [c] && scores[1..][1..] == [];
    assert CountConfident(scores) == 1;
    forall m
      ensures Total(scores, m) == Value(g, m) + Value(c, m)
    {
      assert Total([c], m) == Value(c, m) + Total([], m);
    }
  }

  /**
   * GPT answers with a readable record and Claude's call raises: the ensemble
   * counts one model, quotes GPT's reasoning, and averages every component
   * with Claude's neutral 50 and the confidence with its 20.
   */
  lemma OneProviderFailed(content: string, message: string, dec: Decoder)
    requires ParseJsonResponse(content, ModelName(Gpt51), dec).confidence > CountThreshold
    requires ParseJsonResponse(content, ModelName(Gpt51), dec).reasoning.JStr?
    ensures var g := ParseJsonResponse(content, ModelName(Gpt51), dec);
            var r := ScoreEnsemble(Answered(content), Raised(message), dec);
            && r.Success?
            && (forall m :: m != Confidence ==> Value(r.value, m) == (Value(g, m) + Neutral) / 2.0)
            && r.value.confidence == (g.confidence + ProviderFailureConfidence) / 2.0
            && IsEnsembleReasoning(r.value.reasoning, 1, g.reasoning.str)
            && r.value.modelUsed == EnsembleTag
  {
    var g := ScoreWith(Gpt51, Answered(content), dec);
    var c := ScoreWith(Claude4Opus, Raised(message), dec);
    PairMean(g, c);
  }

  lemma {:induction false} TotalBounds(scores: seq<ScoreRecord>, m: Metric, lo: real, hi: real)
    requires forall i :: 0 <= i < |scores| ==> lo <= Value(scores[i], m) <= hi
    ensures lo * (|scores| as real) <= Total(scores, m) <= hi * (|scores| as real)
  {
    if |scores| > 0 {
      TotalBounds(scores[1..], m, lo, hi);
      var k := |scores[1..]| as real;
      assert |scores| as real == k + 1.0;
      assert lo * (k + 1.0) == lo * k + lo;
      assert hi * (k + 1.0) == hi * k + hi;
    }
  }

  /** A value whose multiple by a positive count lies between two multiples lies between their factors. */
  lemma Unscale(lo: real, x: real, hi: real, n: real, t: real)
    requires n > 0.0 && lo * n <= t <= hi * n && x * n == t
    ensures lo <= x <= hi
  {
  }

  /** Dividing both sides of an inequality by a positive count keeps it. */
  lemma ScaleBack(x: real, y: real, n: real)
    requires n > 0.0 && x * n <= y * n
    ensures x <= y
  {
  }

  /** Every averaged field lies between the smallest and the largest input value of that field. */
  lemma {:induction false} MeanWithinBounds(scores: seq<ScoreRecord>, r: ScoreRecord, m: Metric, lo: real, hi: real)
    requires |scores| > 0 && CountConfident(scores) > 0 && Aggregate(scores) == Success(r)
    requires forall i :: 0 <= i < |scores| ==> lo <= Value(scores[i], m) <= hi
    ensures lo <= Value(r, m) <= hi
  {
    MeanOfWithin(scores, m, Value(r, m), lo, hi);
  }

  lemma MeanOfWithin(scores: seq<ScoreRecord>, m: Metric, x: real, lo: real, hi: real)
    requires |scores| > 0 && IsMeanOf(scores, m, x)
    requires forall i :: 0 <= i < |scores| ==> lo <= Value(scores[i], m) <= hi
    ensures lo <= x <= hi
  {
    TotalBounds(scores, m, lo, hi);
    Unscale(lo, x, hi, |scores| as real, Total(scores, m));
  }

  /** Taking out the record at `i` removes exactly its value from the total. */
  lemma {:induction false} TotalRemove(scores: seq<ScoreRecord>, i: nat, m: Metric)
    requires i < |scores|
    ensures Total(scores, m) == Value(scores[i], m) + Total(scores[..i] + scores[i + 1..], m)
  {
    if i > 0 {
      var tail := scores[1..];
      TotalRemove(tail, i - 1, m);
      assert scores[..i] + scores[i + 1..] == [scores[0]] + (tail[..i - 1] + tail[i..]);
    } else {
      assert scores[..i] + scores[i + 1..] == scores[1..];
    }
  }

  /** Taking out the record at `i` removes exactly its contribution from the count. */
  lemma {:induction false} CountRemove(scores: seq<ScoreRecord>, i: nat)
    requires i < |scores|
    ensures CountConfident(scores) ==
            (if scores[i].confidence > CountThreshold then 1 else 0) + CountConfident(scores[..i] + scores[i + 1..])
  {
    if i > 0 {
      var tail := scores[1..];
      CountRemove(tail, i - 1);
      assert scores[..i] + scores[i + 1..] == [scores[0]] + (tail[..i - 1] + tail[i..]);
    } else {
      assert scores[..i] + scores[i + 1..] == scores[1..];
    }
  }

  lemma RemoveMatched(a: seq<ScoreRecord>, b: seq<ScoreRecord>, i: nat)
    requires |a| > 0 && i < |b| && b[i] == a[0] && multiset(a) == multiset(b)
    ensures multiset(a[1..]) == multiset(b[..i] + b[i + 1..])
  {
    assert b == (b[..i] + [b[i]]) + b[i + 1..];
    assert multiset(b) == multiset(b[..i]) + multiset{b[i]} + multiset(b[i + 1..]);
    assert a == [a[0]] + a[1..];
    assert multiset(a) == multiset{a[0]} + multiset(a[1..]);
    assert multiset(b[..i] + b[i + 1..]) == multiset(b[..i]) + multiset(b[i + 1..]);
    assert multiset(a[1..]) == multiset(a) - multiset{a[0]};
    assert multiset(b[..i] + b[i + 1..]) == multiset(b) - multiset{b[i]};
  }

  /** Reordering the records changes neither any total nor the count. */
  lemma {:induction false} PermutationInvariant(a: seq<ScoreRecord>, b: seq<ScoreRecord>)
    requires multiset(a) == multiset(b)
    ensures forall m :: Total(a, m) == Total(b, m)
    ensures CountConfident(a) == CountConfident(b)
    decreases |a|
  {
    if |a| == 0 {
      assert |b| == |multiset(b)| == 0;
    } else {
      assert a[0] in multiset(b);
      var i :| 0 <= i < |b| && b[i] == a[0];
      var rest := b[..i] + b[i + 1..];
      RemoveMatched(a, b, i);
      PermutationInvariant(a[1..], rest);
      forall m
        ensures Total(a, m) == Total(b, m)
      {
        TotalRemove(b, i, m);
      }
      CountRemove(b, i);
    }
  }

  /**
   * The ensemble's numbers do not depend on the order the providers were asked
   * in; only the quoted reasoning does.
   */
  lemma {:induction false} AggregateOrderIndependent(a: seq<ScoreRecord>, b: seq<ScoreRecord>, m: Metric)
    requires |a| > 0 && multiset(a) == multiset(b)
    requires CountConfident(a) > 0 && Aggregate(a).Success? && Aggregate(b).Success?
    ensures |b| > 0 && CountConfident(b) == CountConfident(a)
    ensures Value(Aggregate(a).value, m) == Value(Aggregate(b).value, m)
  {
    PermutationInvariant(a, b);
    assert |a| == |multiset(a)| == |multiset(b)| == |b|;
    var n := |a| as real;
    var x, y := Value(Aggregate(a).value, m), Value(Aggregate(b).value, m);
    assert IsMeanOf(a, m, x) && IsMeanOf(b, m, y);
    assert x * n == y * n;
    ScaleBack(x, y, n);
    ScaleBack(y, x, n);
  }

  /**
   * Records built for a failed call or an unreadable reply never count as a
   * contributing model, since their confidence is at most the threshold.
   */
  lemma FailuresNotCounted(scores: seq<ScoreRecord>)
    requires forall i :: 0 <= i < |scores| ==> IsProviderFailure(scores[i]) || IsParseFailure(scores[i])
    ensures CountConfident(scores) == 0
  {
  }

  /**
   * A failed provider still enters the mean with its neutral 50s: one reply of
   * 60s beside one failed call gives 55, not 60.
   */
  lemma FailuresAreAveraged(ok: ScoreRecord, message: string)
    requires ComponentsAre(ok, 60.0) && ok.confidence > CountThreshold && ok.reasoning.JStr?
    ensures var scores := [ok, NeutralRecord(JStr(message), ProviderFailureConfidence, ErrorTag(Claude4Opus))];
            && Aggregate(scores).Success?
            && Value(Aggregate(scores).value, OverallScore) == 55.0
  {
    var scores := [ok, NeutralRecord(JStr(message), ProviderFailureConfidence, ErrorTag(Claude4Opus))];
    assert scores[1..][1..] == [];
    assert CountConfident(scores) == 1;
    assert Value(ok, OverallScore) == 60.0;
    assert Total(scores[1..][1..], OverallScore) == 0.0;
    assert Total(scores[1..], OverallScore) == 50.0;
    assert Total(scores, OverallScore) == 110.0;
    var x := Value(Aggregate(scores).value, OverallScore);
    assert IsMeanOf(scores, OverallScore, x);
  }
}

=== FILE: extractor.dfy ===
/**
 * The rule both files use to cut a provider's free-text reply down to the text
 * handed to `json.loads`:
 *   1. the interior of the leftmost  ```json ... ```  fence, found with
 *      the regular expression  ```json\s*(.*?)\s*```  under DOTALL;
 *   2. otherwise, when the reply holds a `{`, the slice
 *      `text[text.find('{') : text.rfind('}') + 1]`;
 *   3. otherwise the reply itself.
 */
module Extractor {
  import opened Results
  import opened Text

  const FenceOpen: string := "```json"
  const FenceClose: string := "```"

  /**
   * A match of the fence expression: the opener at `open`, the captured group
   * `s[start..end]`, the closer at `close`.
   */
  datatype Fence = Fence(open: nat, start: nat, end: nat, close: nat)

  /** The regular expression matches somewhere: an opener with a closer at or after its end. */
  ghost predicate HasFence(s: string) {
    exists p: nat, k: nat :: OccursAt(s, FenceOpen, p) && OccursAt(s, FenceClose, k) && p + |FenceOpen| <= k
  }

  /**
   * The match `re.search` reports: the leftmost opener, the greedy `\s*` after it,
   * and the lazy group that stops at the first closer, with the whitespace in
   * front of that closer left to the second `\s*`.
   */
  ghost predicate IsLeftmostFence(s: string, f: Fence) {
    && OccursAt(s, FenceOpen, f.open)
    && (forall j :: 0 <= j < f.open ==> !OccursAt(s, FenceOpen, j))
    && f.open + |FenceOpen| <= f.start <= f.end <= f.close <= |s|
    && AllSpace(s[f.open + |FenceOpen|..f.start])
    && (f.start == |s| || !IsSpace(s[f.start]))
    && AllSpace(s[f.end..f.close])
    && (f.end == f.start || !IsSpace(s[f.end - 1]))
    && OccursAt(s, FenceClose, f.close)
    && (forall j :: f.start <= j < f.close ==> !OccursAt(s, FenceClose, j))
  }

  lemma OccursAtHead(s: string, pat: string, i: nat)
    requires OccursAt(s, pat, i) && |pat| > 0
    ensures s[i] == pat[0]
  {
  }

  /** An opener starts with a closer, so every opener is also a closer position. */
  lemma OpenerIsCloser(s: string, p: nat)
    requires OccursAt(s, FenceOpen, p)
    ensures OccursAt(s, FenceClose, p)
  {
    assert s[p..p + 3] == s[p..p + 7][..3];
  }

  /** No closer starts inside an opener after its first character. */
  lemma NoCloserInsideOpener(s: string, p: nat, k: nat)
    requires OccursAt(s, FenceOpen, p)
    requires p < k < p + |FenceOpen|
    ensures !OccursAt(s, FenceClose, k)
  {
    var o := s[p..p + 7];
    assert s[p + 3] == o[3] == 'j';
    assert s[p + 4] == o[4] == 's';
    assert s[p + 5] == o[5] == 'o';
    assert s[p + 6] == o[6] == 'n';
    CloserChars(s, k);
  }

  lemma CloserChars(s: string, k: nat)
    ensures OccursAt(s, FenceClose, k) ==> s[k] == '`' && s[k + 2] == '`'
  {
  }

  /** Whitespace is never a backtick, so a closer cannot start inside a whitespace run. */
  lemma NoCloserInSpace(s: string, lo: nat, hi: nat, k: nat)
    requires lo <= k < hi <= |s|
    requires AllSpace(s[lo..hi])
    ensures !OccursAt(s, FenceClose, k)
  {
    assert s[k] == s[lo..hi][k - lo];
    if OccursAt(s, FenceClose, k) {
      OccursAtHead(s, FenceClose, k);
    }
  }

  /** `re.search` with the fence expression. */
  function FindFence(s: string): (r: Option<Fence>)
    ensures r.Some? ==> IsLeftmostFence(s, r.value)
    ensures r.Some? <==> HasFence(s)
  {
    match FindFrom(s, FenceOpen, 0)
    case None => None
    case Some(p) =>
      var w := SkipSpace(s, p + |FenceOpen|);
      match FindFrom(s, FenceClose, w)
      case None =>
        NoFenceAfterFirstOpener(s, p, w);
        None
      case Some(k) =>
        Some(Fence(p, w, TrimEnd(s, w, k), k))
  }

  /**
   * If the first opener has no closer after its whitespace run, the expression
   * matches nowhere: a later opener would itself be such a closer.
   */
  lemma NoFenceAfterFirstOpener(s: string, p: nat, w: nat)
    requires OccursAt(s, FenceOpen, p)
    requires forall j :: 0 <= j < p ==> !OccursAt(s, FenceOpen, j)
    requires p + |FenceOpen| <= w <= |s| && AllSpace(s[p + |FenceOpen|..w])
    requires forall j :: w <= j ==> !OccursAt(s, FenceClose, j)
    ensures !HasFence(s)
  {
    forall p': nat, k: nat | OccursAt(s, FenceOpen, p') && OccursAt(s, FenceClose, k) && p' + |FenceOpen| <= k
      ensures false
    {
      if p' == p {
        if k < w {
          NoCloserInSpace(s, p + |FenceOpen|, w, k);
        }
      } else {
        assert p < p';
        OpenerIsCloser(s, p');
        if p' < p + |FenceOpen| {
          NoCloserInsideOpener(s, p, p');
        } else if p' < w {
          NoCloserInSpace(s, p + |FenceOpen|, w, p');
        }
      }
    }
  }

  /** The leftmost fence is determined by the text: two candidates are the same match. */
  lemma LeftmostFenceUnique(s: string, f: Fence, g: Fence)
    requires IsLeftmostFence(s, f) && IsLeftmostFence(s, g)
    ensures f == g
  {
    // Both openers are the first one.
    assert !(f.open < g.open) && !(g.open < f.open);
    var o := f.open + |FenceOpen|;
    // Each whitespace run ends at the first non-space after the opener.
    SpaceWithin(s, o, g.start, f.start);
    SpaceWithin(s, o, f.start, g.start);
    assert f.start == g.start;
    // Each closer is the first one at or after the group's start.
    assert !(f.close < g.close) && !(g.close < f.close);
    // Each group ends where the whitespace before the closer begins.
    SpaceWithin(s, f.end, f.close, g.end - 1);
    SpaceWithin(s, g.end, g.close, f.end - 1);
    assert f.end == g.end;
  }

  /** A position inside a whitespace run holds whitespace. */
  lemma SpaceWithin(s: string, lo: nat, hi: nat, k: int)
    requires lo <= hi <= |s| && AllSpace(s[lo..hi])
    ensures lo <= k < hi ==> IsSpace(s[k])
  {
    if lo <= k < hi {
      assert s[k] == s[lo..hi][k - lo];
    }
  }

  /** `i` is the first `{` of `s` and `l` the last `}`, with `l` not before `i`. */
  ghost predicate IsBraceSpan(s: string, i: nat, l: nat) {
    && i <= l < |s|
    && s[i] == '{' && (forall j :: 0 <= j < i ==> s[j] != '{')
    && s[l] == '}' && (forall j :: l < j < |s| ==> s[j] != '}')
  }

  /** `i` is the first `{` of `s` and no `}` occurs from `i` on. */
  ghost predicate IsUnclosedBrace(s: string, i: nat) {
    && i < |s|
    && s[i] == '{' && (forall j :: 0 <= j < i ==> s[j] != '{')
    && (forall j :: i <= j < |s| ==> s[j] != '}')
  }

  /** Python's `s[i:j]` for indices within bounds: empty when `j <= i`. */
  function Slice(s: string, i: nat, j: nat): (r: string)
    requires i <= |s| && j <= |s|
    ensures i < j ==> r == s[i..j]
    ensures j <= i ==> r == []
  {
    if i < j then s[i..j] else []
  }

  /** The text handed to `json.loads`. */
  function ExtractJsonText(s: string): (r: string)
    ensures forall f :: IsLeftmostFence(s, f) ==> r == s[f.start..f.end]
    ensures !HasFence(s) ==> forall i: nat, l: nat :: IsBraceSpan(s, i, l) ==> r == s[i..l + 1]
    ensures !HasFence(s) ==> forall i: nat :: IsUnclosedBrace(s, i) ==> r == []
    ensures !HasFence(s) && '{' !in s ==> r == s
  {
    match FindFence(s)
    case Some(f) =>
      FenceDeterminesText(s, f);
      s[f.start..f.end]
    case None =>
      if '{' in s then
        var start := IndexOf(s, '{').value;
        var end := match LastIndexOf(s, '}') case Some(l) => l + 1 case None => 0;
        BraceDeterminesText(s, start, end);
        Slice(s, start, end)
      else
        assert forall i :: 0 <= i < |s| ==> s[i] != '{';
        s
  }

  lemma FenceDeterminesText(s: string, f: Fence)
    requires IsLeftmostFence(s, f)
    ensures forall g :: IsLeftmostFence(s, g) ==> s[g.start..g.end] == s[f.start..f.end]
  {
    forall g | IsLeftmostFence(s, g)
      ensures s[g.start..g.end] == s[f.start..f.end]
    {
      LeftmostFenceUnique(s, f, g);
    }
  }

  lemma BraceDeterminesText(s: string, start: nat, end: nat)
    requires start < |s| && s[start] == '{' && forall j :: 0 <= j < start ==> s[j] != '{'
    requires end <= |s|
    requires end == 0 ==> '}' !in s
    requires end > 0 ==> s[end - 1] == '}' && forall j :: end <= j < |s| ==> s[j] != '}'
    ensures forall i: nat, l: nat :: IsBraceSpan(s, i, l) ==> Slice(s, start, end) == s[i..l + 1]
    ensures forall i: nat :: IsUnclosedBrace(s, i) ==> Slice(s, start, end) == []
  {
  }

  /**
   * A reply that wraps one object in prose, without a fence, hands exactly that
   * object to the decoder; with empty prose this is the bare-reply case.
   */
  lemma {:induction false} ProseWrappedRoundTrip(pre: string, payload: string, post: string)
    requires '{' !in pre && '}' !in post
    requires |payload| > 0 && payload[0] == '{' && payload[|payload| - 1] == '}'
    requires !HasFence(pre + payload + post)
    ensures ExtractJsonText(pre + payload + post) == payload
  {
    var s := pre + payload + post;
    var i, l := |pre|, |pre| + |payload| - 1;
    assert s[i] == payload[0];
    assert s[l] == payload[|payload| - 1];
    assert forall j :: 0 <= j < i ==> s[j] == pre[j];
    assert forall j :: l < j < |s| ==> s[j] == post[j - l - 1];
    assert IsBraceSpan(s, i, l);
    assert s[i..l + 1] == payload;
  }

  /**
   * A reply holding  ```json <payload> ```  after prose without backticks hands
   * exactly the payload to the decoder, whatever whitespace surrounds it inside
   * the fence and whatever follows the fence.
   */
  lemma {:induction false} FencedRoundTrip(pre: string, lead: string, payload: string, trail: string, post: string)
    requires '`' !in pre && '`' !in payload
    requires AllSpace(lead) && AllSpace(trail)
    requires |payload| > 0 && !IsSpace(payload[0]) && !IsSpace(payload[|payload| - 1])
    ensures ExtractJsonText(pre + FenceOpen + lead + payload + trail + FenceClose + post) == payload
  {
    var s := pre + FenceOpen + lead + payload + trail + FenceClose + post;
    var o := |pre|;
    var st := o + |FenceOpen| + |lead|;
    var e := st + |payload|;
    var c := e + |trail|;
    var f := Fence(o, st, e, c);
    assert s[o..o + |FenceOpen|] == FenceOpen;
    forall j | 0 <= j < o
      ensures !OccursAt(s, FenceOpen, j)
    {
      assert s[j] == pre[j];
      if OccursAt(s, FenceOpen, j) {
        OccursAtHead(s, FenceOpen, j);
      }
    }
    assert s[o + |FenceOpen|..st] == lead;
    assert s[st] == payload[0];
    assert s[e..c] == trail;
    assert s[e - 1] == payload[|payload| - 1];
    assert s[c..c + |FenceClose|] == FenceClose;
    forall j | st <= j < c
      ensures !OccursAt(s, FenceClose, j)
    {
      CloserChars(s, j);
      if j < e {
        assert s[j] == payload[j - st];
      } else {
        assert s[j] == trail[j - e];
      }
    }
    assert IsLeftmostFence(s, f);
    assert s[st..e] == payload;
  }
}

=== FILE: json.dfy ===
/**
 * Decoded JSON values and the Python conversions the core applies to them.
 * `json.loads` and `float()` on a string are not modelled; they are supplied
 * as a `Decoder`.
 */
module Json {
  import opened Results

  datatype JsonValue =
    | JNull
    | JBool(b: bool)
    | JNum(n: real)
    | JStr(str: string)
    | JArr(items: seq<JsonValue>)
    | JObj(members: map<string, JsonValue>)

  /**
   * The library routines the core calls without defining: `json.loads`, and
   * Python's `float()` applied to a string (which reads forms such as " 75 " or
   * "1e3"). Each gives the value, or the message of the exception it raises.
   */
  datatype Decoder = Decoder(
    loads: string -> Result<JsonValue, string>,
    parseFloat: string -> Result<real, string>)

  /** The exceptions raised along the scoring paths, by cause. */
  datatype Fault =
    | DecodeError(message: string)             // `json.loads` rejected the text
    | NotAnObject                              // `.get` on a decoded value that is not a dict
    | NotConvertible(key: string)              // `float()` of null, a list or a dict
    | BadNumber(key: string, message: string)  // `float()` of a string it cannot read
    | NotComparable                            // `>` or `-` between values that are not numbers
    | ReasoningNotText                         // `str + reasoning` with a reasoning that is not a str
    | ProviderError(message: string)           // the provider call itself raised

  /** The text an exception contributes to `f"Parse error: {e}"`. */
  function Describe(f: Fault): string {
    match f
    case DecodeError(m) => m
    case NotAnObject => "object has no attribute 'get'"
    case NotConvertible(k) => "float() argument must be a string or a real number (" + k + ")"
    case BadNumber(_, m) => m
    case NotComparable => "unsupported operand types"
    case ReasoningNotText => "can only concatenate str to str"
    case ProviderError(m) => m
  }

  /** Python's `dict.get(key, default)`. */
  function Get(members: map<string, JsonValue>, key: string, default: JsonValue): (v: JsonValue)
    ensures key in members ==> v == members[key]
    ensures key !in members ==> v == default
  {
    if key in members then members[key] else default
  }

  /** Python's `float(v)` on a decoded value; `key` names the field for the error. */
  function ToFloat(v: JsonValue, key: string, dec: Decoder): (r: Result<real, Fault>)
    ensures v.JNum? ==> r == Success(v.n)
    ensures v.JBool? ==> r == Success(if v.b then 1.0 else 0.0)
    ensures v.JStr? && dec.parseFloat(v.str).Success? ==> r == Success(dec.parseFloat(v.str).value)
    ensures v.JStr? && dec.parseFloat(v.str).Failure? ==> r == Failure(BadNumber(key, dec.parseFloat(v.str).error))
    ensures (v.JNull? || v.JArr? || v.JObj?) ==> r == Failure(NotConvertible(key))
    ensures r.Success? <==> (v.JNum? || v.JBool? || (v.JStr? && dec.parseFloat(v.str).Success?))
  {
    match v
    case JNum(x) => Success(x)
    case JBool(b) => Success(if b then 1.0 else 0.0)
    case JStr(t) =>
      (match dec.parseFloat(t)
       case Success(x) => Success(x)
       case Failure(m) => Failure(BadNumber(key, m)))
    case _ => Failure(NotConvertible(key))
  }

  /**
   * The value as a Python number, when it is one: `int`, `float` and `bool`
   * (which Python orders and subtracts as 0 and 1).
   */
  function AsNumber(v: JsonValue): Option<real> {
    match v
    case JNum(x) => Some(x)
    case JBool(b) => Some(if b then 1.0 else 0.0)
    case _ => None
  }
}

=== FILE: results.dfy ===
/** Failure-carrying values used in place of the source's exceptions and `None` returns. */
module Results {

  /** A value that may be absent (Python's `-1` / `None` search results). */
  datatype Option<+T> = None | Some(value: T)

  /** Either a computed value or the error that the source would have raised. */
  datatype Result<+T, +E> = Success(value: T) | Failure(error: E)
}

=== FILE: scoring.dfy ===
/**
 * One provider's opinion as a score record: `_parse_json_response` and the
 * error records of `score_with_gpt51` / `score_with_claude4`.
 */
module Scoring {
  import opened Results
  import opened Json
  import Text
  import Extractor

  /** The source's `ViralityScore`. */
  datatype ScoreRecord = ScoreRecord(
    overallScore: real,
    textQuality: real,
    visualAppeal: real,
    emotionalResonance: real,
    clarity: real,
    brandAlignment: real,
    platformOptimization: real,
    reasoning: JsonValue,
    confidence: real,
    modelUsed: string)

  /** The numeric fields of a record. */
  datatype Metric =
    | OverallScore
    | TextQuality
    | VisualAppeal
    | EmotionalResonance
    | Clarity
    | BrandAlignment
    | PlatformOptimization
    | Confidence

  /** The numeric fields in the order the source converts them. */
  const Metrics: seq<Metric> := [OverallScore, TextQuality, VisualAppeal, EmotionalResonance,
                                 Clarity, BrandAlignment, PlatformOptimization, Confidence]

  /** The value every numeric field takes when the reply leaves it out. */
  const Neutral: real := 50.0
  /** Confidence of the record built when a reply cannot be read. */
  const ParseFailureConfidence: real := 30.0
  /** Confidence of the record built when the provider call raises. */
  const ProviderFailureConfidence: real := 20.0

  /** The JSON key a metric is read from. */
  function Key(m: Metric): string {
    match m
    case OverallScore => "overall_score"
    case TextQuality => "text_quality"
    case VisualAppeal => "visual_appeal"
    case EmotionalResonance => "emotional_resonance"
    case Clarity => "clarity"
    case BrandAlignment => "brand_alignment"
    case PlatformOptimization => "platform_optimization"
    case Confidence => "confidence"
  }

  function Value(r: ScoreRecord, m: Metric): real {
    match m
    case OverallScore => r.overallScore
    case TextQuality => r.textQuality
    case VisualAppeal => r.visualAppeal
    case EmotionalResonance => r.emotionalResonance
    case Clarity => r.clarity
    case BrandAlignment => r.brandAlignment
    case PlatformOptimization => r.platformOptimization
    case Confidence => r.confidence
  }

  /** All seven score components (every metric but confidence) equal `x`. */
  predicate ComponentsAre(r: ScoreRecord, x: real) {
    forall m :: m != Confidence ==> Value(r, m) == x
  }

  /** The record `ViralityScore(50, 50, 50, 50, 50, 50, 50, reasoning, confidence, model)`. */
  function NeutralRecord(reasoning: JsonValue, confidence: real, model: string): (r: ScoreRecord)
    ensures ComponentsAre(r, Neutral) && r.confidence == confidence
    ensures r.reasoning == reasoning && r.modelUsed == model
  {
    ScoreRecord(Neutral, Neutral, Neutral, Neutral, Neutral, Neutral, Neutral, reasoning, confidence, model)
  }

  /** `float(data.get(key, 50))` for one metric. */
  function ReadMetric(members: map<string, JsonValue>, m: Metric, dec: Decoder): Result<real, Fault> {
    ToFloat(Get(members, Key(m), JNum(Neutral)), Key(m), dec)
  }

  /** The metrics `ms` read in order; the first conversion that raises ends the reading. */
  function ReadMetrics(members: map<string, JsonValue>, ms: seq<Metric>, dec: Decoder): (r: Result<seq<real>, Fault>)
    ensures r.Success? ==> |r.value| == |ms|
    ensures r.Success? ==> forall i :: 0 <= i < |ms| ==> ReadMetric(members, ms[i], dec) == Success(r.value[i])
    ensures r.Failure? ==> exists i :: 0 <= i < |ms| && ReadMetric(members, ms[i], dec) == Failure(r.error)
                                      && forall j :: 0 <= j < i ==> ReadMetric(members, ms[j], dec).Success?
  {
    if |ms| == 0 then Success([])
    else
      match ReadMetric(members, ms[0], dec)
      case Failure(f) => Failure(f)
      case Success(x) =>
        match ReadMetrics(members, ms[1..], dec)
        case Failure(f) => Failure(f)
        case Success(xs) => Success([x] + xs)
  }

  /** The decoded reply is an object whose numeric fields all convert with `float()`. */
  ghost predicate Decodes(text: string, dec: Decoder, members: map<string, JsonValue>) {
    && dec.loads(Extractor.ExtractJsonText(text)) == Success(JObj(members))
    && forall m :: ReadMetric(members, m, dec).Success?
  }

  /** `x` is what the reply gives for metric `m`: its converted value, or 50 when absent. */
  ghost predicate FieldFrom(members: map<string, JsonValue>, m: Metric, x: real, dec: Decoder) {
    if Key(m) in members then ToFloat(members[Key(m)], Key(m), dec) == Success(x) else x == Neutral
  }

  /** The record built when a reply cannot be read. */
  ghost predicate IsParseFailure(r: ScoreRecord) {
    && ComponentsAre(r, Neutral)
    && r.confidence == ParseFailureConfidence
    && r.reasoning.JStr? && "Parse error: " <= r.reasoning.str
  }

  function ParseFailure(f: Fault, model: string): ScoreRecord {
    NeutralRecord(JStr("Parse error: " + Describe(f)), ParseFailureConfidence, model)
  }

  /** The body of the source's `try`: the dict lookups and `float()` conversions. */
  function ReadRecord(data: JsonValue, model: string, dec: Decoder): Result<ScoreRecord, Fault> {
    if !data.JObj? then Failure(NotAnObject)
    else
      match ReadMetrics(data.members, Metrics, dec)
      case Failure(f) => Failure(f)
      case Success(v) =>
        Success(ScoreRecord(v[0], v[1], v[2], v[3], v[4], v[5], v[6],
                            Get(data.members, "reasoning", JStr("")), v[7], model))
  }

  /**
   * `_parse_json_response`: a record read from the reply, or the parse-error
   * record; it never raises.
   */
  function ParseJsonResponse(text: string, model: string, dec: Decoder): (r: ScoreRecord)
    ensures r.modelUsed == model
    ensures forall members :: Decodes(text, dec, members) ==>
              && (forall m :: FieldFrom(members, m, Value(r, m), dec))
              && r.reasoning == Get(members, "reasoning", JStr(""))
    ensures (forall members :: !Decodes(text, dec, members)) ==> IsParseFailure(r)
  {
    match dec.loads(Extractor.ExtractJsonText(text))
    case Failure(msg) => ParseFailure(DecodeError(msg), model)
    case Success(data) =>
      match ReadRecord(data, model, dec)
      case Failure(f) => ParseFailure(f, model)
      case Success(rec) =>
        ReadRecordFields(data, model, dec);
        rec
  }

  lemma ReadRecordFields(data: JsonValue, model: string, dec: Decoder)
    requires ReadRecord(data, model, dec).Success?
    ensures data.JObj? && forall m :: ReadMetric(data.members, m, dec).Success?
    ensures forall m :: FieldFrom(data.members, m, Value(ReadRecord(data, model, dec).value, m), dec)
  {
    var members := data.members;
    var v := ReadMetrics(members, Metrics, dec).value;
    var rec := ReadRecord(data, model, dec).value;
    forall m
      ensures ReadMetric(members, m, dec).Success?
      ensures FieldFrom(members, m, Value(rec, m), dec)
    {
      var i := MetricIndex(m);
      assert ReadMetric(members, m, dec) == Success(v[i]);
      assert Value(rec, m) == v[i];
      // An absent field is read from the default, which `float()` keeps.
      assert ToFloat(JNum(Neutral), Key(m), dec) == Success(Neutral);
    }
  }

  /** Where metric `m` stands in `Metrics`. */
  function MetricIndex(m: Metric): (i: nat)
    ensures i < |Metrics| && Metrics[i] == m
  {
    match m
    case OverallScore => 0
    case TextQuality => 1
    case VisualAppeal => 2
    case EmotionalResonance => 3
    case Clarity => 4
    case BrandAlignment => 5
    case PlatformOptimization => 6
    case Confidence => 7
  }

  /**
   * A reply holding a fenced object whose numeric fields all convert is read
   * field by field: each metric is the reply's value, or 50 when it is absent.
   */
  lemma {:induction false} ParsesFencedReply(pre: string, lead: string, payload: string, trail: string, post: string,
                          model: string, dec: Decoder, members: map<string, JsonValue>)
    requires '`' !in pre && '`' !in payload
    requires Text.AllSpace(lead) && Text.AllSpace(trail)
    requires |payload| > 0 && !Text.IsSpace(payload[0]) && !Text.IsSpace(payload[|payload| - 1])
    requires dec.loads(payload) == Success(JObj(members))
    requires forall m :: ReadMetric(members, m, dec).Success?
    ensures var r := ParseJsonResponse(pre + Extractor.FenceOpen + lead + payload + trail + Extractor.FenceClose + post, model, dec);
            && (forall m :: FieldFrom(members, m, Value(r, m), dec))
            && r.reasoning == Get(members, "reasoning", JStr(""))
            && r.modelUsed == model
  {
    var text := pre + Extractor.FenceOpen + lead + payload + trail + Extractor.FenceClose + post;
    Extractor.FencedRoundTrip(pre, lead, payload, trail, post);
    assert Decodes(text, dec, members);
  }

  /** The providers the ensemble asks. */
  datatype Provider = Gpt51 | Claude4Opus

  /** What a provider call produced: the reply's text, or the message of the exception it raised. */
  datatype Reply = Answered(content: string) | Raised(message: string)

  function ModelName(p: Provider): string {
    match p
    case Gpt51 => "GPT-5.1"
    case Claude4Opus => "Claude-4-Opus"
  }

  /** The `model_used` tag of a failed call; note Claude's is not its model name plus a suffix. */
  function ErrorTag(p: Provider): string {
    match p
    case Gpt51 => "GPT-5.1-ERROR"
    case Claude4Opus => "Claude-4-ERROR"
  }

  /** The record built when the provider call raises. */
  ghost predicate IsProviderFailure(r: ScoreRecord) {
    && ComponentsAre(r, Neutral)
    && r.confidence == ProviderFailureConfidence
    && |r.modelUsed| >= 6 && r.modelUsed[|r.modelUsed| - 6..] == "-ERROR"
  }

  /** `score_with_gpt51` / `score_with_claude4` after the provider call. */
  function ScoreWith(p: Provider, reply: Reply, dec: Decoder): (r: ScoreRecord)
    ensures reply.Raised? ==> IsProviderFailure(r) && r.reasoning == JStr(reply.message)
    ensures r.modelUsed == ErrorTag(p) <==> reply.Raised?
    ensures reply.Answered? ==> r.modelUsed == ModelName(p)
    ensures reply.Answered? ==> r == ParseJsonResponse(reply.content, ModelName(p), dec)
  {
    match reply
    case Answered(content) => ParseJsonResponse(content, ModelName(p), dec)
    case Raised(message) => NeutralRecord(JStr(message), ProviderFailureConfidence, ErrorTag(p))
  }
}

=== FILE: text.dfy ===
/**
 * String facts the extraction rule and the report text rely on: Python's notion
 * of whitespace, substring search, `[:n]` slicing and decimal rendering of counts.
 */
module Text {
  import opened Results

  /** Python's `str.isspace`, which is also what the regex class `\s` matches on `str` patterns. */
  predicate IsSpace(c: char) {
    || c == ' '
    || ('\t' <= c <= '\r')
    || ('\U{1C}' <= c <= '\U{1F}')
    || c == '\U{85}'
    || c == '\U{A0}'
    || c == '\U{1680}'
    || ('\U{2000}' <= c <= '\U{200A}')
    || c == '\U{2028}'
    || c == '\U{2029}'
    || c == '\U{202F}'
    || c == '\U{205F}'
    || c == '\U{3000}'
  }

  predicate AllSpace(s: string) {
    forall i :: 0 <= i < |s| ==> IsSpace(s[i])
  }

  /** `pat` occurs in `s` starting at index `i`. */
  predicate OccursAt(s: string, pat: string, i: nat) {
    i + |pat| <= |s| && s[i..i + |pat|] == pat
  }

  /** The first occurrence of `pat` in `s` at or after index `i` (`str.find` with a start). */
  function FindFrom(s: string, pat: string, i: nat): (r: Option<nat>)
    requires i <= |s|
    ensures r.Some? ==> i <= r.value <= |s| && OccursAt(s, pat, r.value)
    ensures r.Some? ==> forall j :: i <= j < r.value ==> !OccursAt(s, pat, j)
    ensures r.None? ==> forall j :: i <= j ==> !OccursAt(s, pat, j)
    decreases |s| - i
  {
    if OccursAt(s, pat, i) then Some(i)
    else if i == |s| then None
    else FindFrom(s, pat, i + 1)
  }

  /** The first index at or after `i` that is not whitespace: what a greedy `\s*` consumes. */
  function SkipSpace(s: string, i: nat): (r: nat)
    requires i <= |s|
    ensures i <= r <= |s|
    ensures AllSpace(s[i..r])
    ensures r == |s| || !IsSpace(s[r])
    decreases |s| - i
  {
    if i < |s| && IsSpace(s[i]) then SkipSpace(s, i + 1) else i
  }

  /** The start of the whitespace run that ends at `hi`, not going below `lo`. */
  function TrimEnd(s: string, lo: nat, hi: nat): (r: nat)
    requires lo <= hi <= |s|
    ensures lo <= r <= hi
    ensures AllSpace(s[r..hi])
    ensures r == lo || !IsSpace(s[r - 1])
    decreases hi
  {
    if lo < hi && IsSpace(s[hi - 1]) then
      var r := TrimEnd(s, lo, hi - 1);
      assert s[r..hi] == s[r..hi - 1] + [s[hi - 1]];
      r
    else hi
  }

  /** The last index holding `c`, if any (`str.rfind` for one character). */
  function LastIndexOf(s: string, c: char): (r: Option<nat>)
    ensures r.Some? ==> r.value < |s| && s[r.value] == c
    ensures r.Some? ==> forall j :: r.value < j < |s| ==> s[j] != c
    ensures r.None? ==> c !in s
  {
    if |s| == 0 then None
    else if s[|s| - 1] == c then Some(|s| - 1)
    else LastIndexOf(s[..|s| - 1], c)
  }

  /** The first index holding `c`, if any (`str.find` for one character). */
  function IndexOf(s: string, c: char): (r: Option<nat>)
    ensures r.Some? ==> r.value < |s| && s[r.value] == c
    ensures r.Some? ==> forall j :: 0 <= j < r.value ==> s[j] != c
    ensures r.None? ==> c !in s
  {
    if |s| == 0 then None
    else if s[0] == c then Some(0)
    else match IndexOf(s[1..], c)
      case None => None
      case Some(k) => Some(k + 1)
  }

  /** Python's `s[:n]` for a non-negative `n`. */
  function Take(s: string, n: nat): (r: string)
    ensures |r| == if |s| < n then |s| else n
    ensures r <= s
  {
    if |s| < n then s else s[..n]
  }

  predicate IsDigit(c: char) {
    '0' <= c <= '9'
  }

  function DigitChar(d: nat): (c: char)
    requires d < 10
    ensures IsDigit(c)
  {
    ['0', '1', '2', '3', '4', '5', '6', '7', '8', '9'][d]
  }

  function DigitOf(c: char): (d: nat)
    requires IsDigit(c)
    ensures d < 10
  {
    (c as int) - ('0' as int)
  }

  /** The value of a string of decimal digits. */
  function DigitsValue(s: string): nat
    requires forall i :: 0 <= i < |s| ==> IsDigit(s[i])
  {
    if |s| == 0 then 0
    else 10 * DigitsValue(s[..|s| - 1]) + DigitOf(s[|s| - 1])
  }

  /** Decimal rendering of a count, as Python's `str(int)` / f-string `{n}` gives it. */
  function NatToString(n: nat): (r: string)
    ensures |r| > 0
    ensures forall i :: 0 <= i < |r| ==> IsDigit(r[i])
    ensures |r| > 1 ==> r[0] != '0'
  {
    if n < 10 then [DigitChar(n)] else NatToString(n / 10) + [DigitChar(n % 10)]
  }

  /** Reading the rendering back yields the count: the rendering loses nothing. */
  lemma {:induction false} NatToStringRoundTrip(n: nat)
    ensures DigitsValue(NatToString(n)) == n
  {
    if n >= 10 {
      var s := NatToString(n);
      assert s[..|s| - 1] == NatToString(n / 10);
      NatToStringRoundTrip(n / 10);
    }
  }
}

=== FILE: webapp.dfy ===
/**
 * The two scoring routes of the web front end, after the provider call:
 * `score_single` and `predict_ab` (with its inner `score_variant`). Their
 * exceptions become an error response; the model returns them as `Failure`.
 */
module WebApp {
  import opened Results
  import opened Json
  import opened Scoring
  import opened Decision
  import Extractor

  /**
   * `score_single` after the provider call, which is also what `score_variant`
   * does inside `predict_ab`: the extracted text decoded with `json.loads`.
   */
  function ScoreSingle(reply: Reply, dec: Decoder): (r: Result<JsonValue, Fault>)
    ensures reply.Raised? ==> r == Failure(ProviderError(reply.message))
    ensures reply.Answered? && dec.loads(Extractor.ExtractJsonText(reply.content)).Success? ==>
              r == Success(dec.loads(Extractor.ExtractJsonText(reply.content)).value)
    ensures reply.Answered? && dec.loads(Extractor.ExtractJsonText(reply.content)).Failure? ==>
              r == Failure(DecodeError(dec.loads(Extractor.ExtractJsonText(reply.content)).error))
  {
    match reply
    case Raised(message) => Failure(ProviderError(message))
    case Answered(content) =>
      match dec.loads(Extractor.ExtractJsonText(content))
      case Success(v) => Success(v)
      case Failure(m) => Failure(DecodeError(m))
  }

  /** A reply wrapping one object in prose, without a fence, scores as exactly that object. */
  lemma ScoreSingleProseReply(pre: string, payload: string, post: string, dec: Decoder, v: JsonValue)
    requires '{' !in pre && '}' !in post
    requires |payload| > 0 && payload[0] == '{' && payload[|payload| - 1] == '}'
    requires !Extractor.HasFence(pre + payload + post)
    requires dec.loads(payload) == Success(v)
    ensures ScoreSingle(Answered(pre + payload + post), dec) == Success(v)
  {
    Extractor.ProseWrappedRoundTrip(pre, payload, post);
  }

  /** The response of `predict_ab`. */
  datatype AbResponse = AbResponse(
    winner: Variant,
    confidence: real,
    scoreA: JsonValue, scoreB: JsonValue,
    textA: JsonValue, textB: JsonValue,
    visualA: JsonValue, visualB: JsonValue,
    emotionalA: JsonValue, emotionalB: JsonValue,
    clarityA: JsonValue, clarityB: JsonValue,
    reasoning: JsonValue)

  /** Both variants decoded to objects whose overall scores are Python numbers. */
  ghost predicate Comparable(replyA: Reply, replyB: Reply, dec: Decoder) {
    var sa, sb := ScoreSingle(replyA, dec), ScoreSingle(replyB, dec);
    && sa.Success? && sa.value.JObj?
    && sb.Success? && sb.value.JObj?
    && AsNumber(Get(sa.value.members, "overall_score", JNum(Neutral))).Some?
    && AsNumber(Get(sb.value.members, "overall_score", JNum(Neutral))).Some?
  }

  /** `resp` is the response `predict_ab` builds from the two decoded objects. */
  ghost predicate IsAbResponse(resp: AbResponse, ma: map<string, JsonValue>, mb: map<string, JsonValue>) {
    && resp.scoreA == Get(ma, "overall_score", JNum(Neutral))
    && resp.scoreB == Get(mb, "overall_score", JNum(Neutral))
    && AsNumber(resp.scoreA).Some? && AsNumber(resp.scoreB).Some?
    && (var a, b := AsNumber(resp.scoreA).value, AsNumber(resp.scoreB).value;
        && (resp.winner == A <==> a > b)
        && resp.confidence == AbConfidence(a, b))
    && resp.textA == Get(ma, "text_quality", JNum(Neutral))
    && resp.textB == Get(mb, "text_quality", JNum(Neutral))
    && resp.visualA == Get(ma, "visual_appeal", JNum(Neutral))
    && resp.visualB == Get(mb, "visual_appeal", JNum(Neutral))
    && resp.emotionalA == Get(ma, "emotional_resonance", JNum(Neutral))
    && resp.emotionalB == Get(mb, "emotional_resonance", JNum(Neutral))
    && resp.clarityA == Get(ma, "clarity", JNum(Neutral))
    && resp.clarityB == Get(mb, "clarity", JNum(Neutral))
    && resp.reasoning == Get(if resp.winner == A then ma else mb, "reasoning", JStr(""))
  }

  /**
   * `predict_ab` after the two provider calls. `score_a.get` raises unless the
   * decoded value is an object, and `overall_a > overall_b` followed by
   * `abs(overall_a - overall_b)` raises unless both are numbers.
   */
  function PredictAb(replyA: Reply, replyB: Reply, dec: Decoder): (r: Result<AbResponse, Fault>)
    ensures r.Success? <==> Comparable(replyA, replyB, dec)
    ensures r.Success? ==> IsAbResponse(r.value, ScoreSingle(replyA, dec).value.members,
                                        ScoreSingle(replyB, dec).value.members)
    ensures ScoreSingle(replyA, dec).Failure? ==> r == Failure(ScoreSingle(replyA, dec).error)
    ensures ScoreSingle(replyA, dec).Success? && ScoreSingle(replyB, dec).Failure? ==>
              r == Failure(ScoreSingle(replyB, dec).error)
    ensures ScoreSingle(replyA, dec).Success? && ScoreSingle(replyB, dec).Success?
            && (!ScoreSingle(replyA, dec).value.JObj? || !ScoreSingle(replyB, dec).value.JObj?) ==>
              r == Failure(NotAnObject)
    ensures ScoreSingle(replyA, dec).Success? && ScoreSingle(replyB, dec).Success?
            && ScoreSingle(replyA, dec).value.JObj? && ScoreSingle(replyB, dec).value.JObj?
            && !Comparable(replyA, replyB, dec) ==>
              r == Failure(NotComparable)
  {
    match ScoreSingle(replyA, dec)
    case Failure(f) => Failure(f)
    case Success(sa) =>
      match ScoreSingle(replyB, dec)
      case Failure(f) => Failure(f)
      case Success(sb) =>
        if !sa.JObj? || !sb.JObj? then Failure(NotAnObject)
        else
          var ma, mb := sa.members, sb.members;
          var overallA := Get(ma, "overall_score", JNum(Neutral));
          var overallB := Get(mb, "overall_score", JNum(Neutral));
          match (AsNumber(overallA), AsNumber(overallB))
          case (Some(a), Some(b)) =>
            var w := Winner(a, b);
            Success(AbResponse(
              w, AbConfidence(a, b),
              overallA, overallB,
              Get(ma, "text_quality", JNum(Neutral)), Get(mb, "text_quality", JNum(Neutral)),
              Get(ma, "visual_appeal", JNum(Neutral)), Get(mb, "visual_appeal", JNum(Neutral)),
              Get(ma, "emotional_resonance", JNum(Neutral)), Get(mb, "emotional_resonance", JNum(Neutral)),
              Get(ma, "clarity", JNum(Neutral)), Get(mb, "clarity", JNum(Neutral)),
              Get(if w == A then ma else mb, "reasoning", JStr(""))))
          case _ => Failure(NotComparable)
  }

  /** Two replies with equal numeric overall scores give B, at the floor confidence of 50. */
  lemma PredictAbTie(replyA: Reply, replyB: Reply, dec: Decoder)
    requires Comparable(replyA, replyB, dec)
    requires AsNumber(Get(ScoreSingle(replyA, dec).value.members, "overall_score", JNum(Neutral)))
          == AsNumber(Get(ScoreSingle(replyB, dec).value.members, "overall_score", JNum(Neutral)))
    ensures PredictAb(replyA, replyB, dec).Success?
    ensures PredictAb(replyA, replyB, dec).value.winner == B
    ensures PredictAb(replyA, replyB, dec).value.confidence == ConfidenceFloor
  {
  }
}
